=== FILE: README.md ===
# Chat-room relay: room registry and event handlers

A model of the core of a small real-time chat relay. The server keeps
one in-memory registry that maps each room name to a record
`{ users, messages }`. `users` is the room's member list, in join order,
and duplicates are allowed. `messages` is a history of at most ten
`{ username, message }` entries, oldest first. Five socket events act on
the registry:

- `createRoom` registers the room if it is missing, appends the user and
  acknowledges with `roomCreated`.
- `checkRoom` is an existence probe. It answers `roomExists` or
  `roomNotFound`.
- `joinRoom` refuses an unknown room with `roomNotFound`. Otherwise it
  appends the user and sends back the history.
- `sendMessage` ignores an unknown room. Otherwise it appends the message,
  drops the oldest entry once there are more than ten, and broadcasts the
  message to the room.
- `disconnect` filters the departing identity out of every room and deletes
  the rooms left empty.

Each handler is a pure function from the registry before the event to an
`Outcome`: the registry after it, plus the transport instructions the
handler issues, in order. `JoinGroup(room)` stands for `socket.join`.
`Emit(Caller, …)` stands for `socket.emit`, and `Emit(Group(room), …)` for
`io.to(room).emit`. Payload fields that a client may leave out
(`username`, `message`) are `Option<string>`, with `None` standing for
JavaScript `undefined`.

Modules:

- `Wrappers`: `Option`.
- `Rooms`: the data model (`Msg`, `Room`, `Registry`), the invariant
  `Valid`, the member filter `Remove` and the history window `LastN`.
- `Protocol`: the outbound events and the transport instructions.
- `Handlers`: the five handlers. It also holds `DisconnectSweep`, the
  room-by-room loop of `disconnect`, proved equal to the functional
  `Disconnect`.
- `Server`: the inbound events (`OnCreateRoom`, `OnCheckRoom`, `OnJoinRoom`,
  `OnSendMessage`, `OnDisconnect`, one per `socket.on` registration),
  one-event dispatch (`Step`) and runs of events (`Run`).
- `Invariant`: every handler keeps `Valid`, so every reachable registry
  satisfies it.
- `Properties`: laws that relate handlers to one another.
- `Scenarios`: end-to-end runs from an empty registry.
- `AsWritten`: the two behaviours listed under Findings, as the code has
  them.

The `disconnect` handler filters by `socket.username`, and no handler ever
assigns that field. The model therefore gives `Disconnect` an explicit
`identity: Option<string>` parameter. As written, the identity is always
`None`. The model keeps no connection-to-user table, because the code
keeps none.

Where the code's comments and its behaviour disagree, the model follows the
code:

- The comment at server.js:81 says a room with no users left is deleted,
  which suggests a room disappears once its members have disconnected. As
  written, `disconnect` only removes entries whose `username` was absent,
  so a room whose members all gave a name is never deleted
  (`AsWritten.NamedRoomNeverDeleted`, `Scenarios.BothLeaveAsWritten`). The
  invariant that does hold goes one way only: every registered room has at
  least one member entry.
- The comment at server.js:77 speaks of finding the one room where the
  user was present. The loop filters every room and removes every entry
  equal to the identity, repeats included.

## Model

| member | source | states |
|---|---|---|
| Handlers.CreateRoom | server.js:32-38 | Afterwards the room is registered. Its members are the old list, or the empty list for a new room, with `username` appended. Its history is unchanged, or empty for a new room. No other room changes. The caller joins the group and gets `roomCreated(room)` even when the room already existed. |
| Handlers.CheckRoom | server.js:40-46 | The registry is unchanged. The single reply is `roomExists` exactly when the room is registered, and `roomNotFound` exactly when it is not. |
| Handlers.JoinRoom | server.js:48-57 | For an unknown room, the registry is unchanged, no room is created and the only reply is `roomNotFound`. For a known room, `username` is appended, the history and the other rooms are unchanged, and the caller joins the group and is sent the current history, oldest first. |
| Handlers.SendMessage | server.js:59-72 | For an unknown room, nothing changes and nothing is emitted. For a known room with at most 10 messages, the history becomes the last `min(10, n+1)` entries of the old history followed by `{username, message}`. Members and other rooms are untouched, and exactly one `newMessage` with that entry goes to the room's group. |
| Handlers.Disconnect | server.js:74-87 | Nothing is emitted and no room is added. A room survives exactly when some member entry differs from the departing identity. A survivor's members are the old list with that identity filtered out, and its history is unchanged. |
| Handlers.DisconnectSweep | server.js:78-86 | The source's loop filters and deletes one room at a time. In any visiting order, it ends with exactly the registry `Disconnect` describes. |
| Rooms.Remove | server.js:79 | The filtered list never grows. Each value other than the identity keeps its number of occurrences, and the identity occurs zero times. |
| Rooms.RemoveAppend | server.js:79 | Filtering distributes over concatenation, so survivors keep their relative order. |
| Rooms.RemoveAbsent | server.js:79 | Filtering a list that does not contain the identity returns the list unchanged. |
| Rooms.RemoveEmptyIff | server.js:79-83 | The filtered list is non-empty exactly when some entry differs from the identity, which is the test for deleting the room. |
| Rooms.LastNAbsorbs | server.js:63-68 | Trimming a history to the last `n` entries, appending more, and trimming again gives the same result as trimming once at the end. |
| Server.Step | server.js:32-87 | `checkRoom`, a refused `joinRoom` and a `sendMessage` to an unknown room all leave the registry unchanged. Only `createRoom` registers a room, and only that event's room. Only `disconnect` removes rooms. |
| Server.SendsKeepMostRecent | server.js:59-71 | Sends to a room whose history is within capacity leave exactly the last 10 of (old history ++ sent messages), in send order. Members and other rooms are unchanged. Each message is broadcast once to the room's group, in send order. |
| Server.FoldAppend | server.js:29-89 | Handling two runs of events one after the other is the same as handling their concatenation. |
| Invariant.CreateRoomKeepsValid | server.js:33-34 | `createRoom` keeps every room non-empty and every history within capacity. |
| Invariant.JoinRoomKeepsValid | server.js:49-53 | `joinRoom` keeps every room non-empty and every history within capacity. |
| Invariant.SendMessageKeepsValid | server.js:63-68 | `sendMessage` keeps every history within 10 entries. |
| Invariant.DisconnectKeepsValid | server.js:79-84 | `disconnect` leaves no registered room without members, adds no room, and leaves every surviving room's history as it was. |
| Invariant.StepKeepsValid | server.js:32-87 | Every one of the five handlers preserves the registry invariant. |
| Invariant.RunKeepsValid | server.js:29-89 | Any run of events starting from a valid registry ends in a valid registry. |
| Invariant.ReachableIsValid | server.js:27 | Starting from the empty registry, every reachable room has a member and at most 10 messages. |
| Properties.CreatedRoomIsJoinable | server.js:33-56 | After `createRoom`, the probe finds the room and a `joinRoom` is accepted. The join replays the history the room had before, or an empty history for a new room. |
| Properties.JoinCountsEveryEntry | server.js:33-53 | Each `createRoom`, and each accepted `joinRoom`, adds one more entry for its username, even a repeated one. |
| Properties.JoinerSeesLatestMessage | server.js:53-68 | After a send to a valid room, the next joiner's history is non-empty, within capacity, and ends with the sent entry. |
| Properties.DisconnectRemovesIdentity | server.js:79 | After `disconnect`, no room holds the departing identity. Every other entry of a surviving room is still there. |
| Properties.SurvivorIsStable | server.js:79-85 | A room that survives a `disconnect` is unchanged by a second `disconnect` with the same identity. |
| Properties.DisconnectIdempotent | server.js:78-86 | Repeating `disconnect` with the same identity changes nothing more. |
| Properties.DisconnectKeepsOrder | server.js:79 | A surviving member list is the filtered first part followed by the filtered second part. |
| AsWritten.CheckRoomAsWritten | server.js:40-46 | The probe as written answers `roomExists` exactly when the room is registered or its name is inherited from `Object.prototype`. |
| AsWritten.CheckRoomAsWrittenAgrees | server.js:41 | For every name that is not inherited, the as-written probe and the intended probe agree. |
| AsWritten.PhantomRoomReported | server.js:40-45 | With no rooms at all, probing `"toString"` answers `roomExists` as written and `roomNotFound` as intended. |
| AsWritten.DisconnectAsWritten | server.js:79 | With the identity always absent, a room is kept exactly when it has a named member. A kept room loses every nameless entry, keeps each named entry as many times as it held it, and keeps its history. Nothing is emitted and no room is added. |
| AsWritten.NamedRoomNeverDeleted | server.js:79-85 | The written `disconnect` leaves a room whose members all gave a username exactly as it was. |
| Scenarios.CreateThenJoin | server.js:32-57 | Alice creates a room and Bob joins it. Both are members, in that order, and Bob is sent the empty history. |
| Scenarios.CreateJoinSend | server.js:32-71 | Create, join, then send. The replies are `roomCreated`, then `loadMessages([])`, then one `newMessage({alice, text})` to the room's group. |
| Scenarios.JoinerGetsMostRecent | server.js:59-68 | After any number of sends to a new room, a joiner gets exactly the last 10 messages in send order. After 12 sends, that is messages 3 to 12. |
| Scenarios.BothLeaveAsWritten | server.js:74-87 | Both named members' connections close with the identity absent, and the probe still answers `roomExists`. |
| Scenarios.BothLeaveByName | server.js:78-86 | Both members leave under their own names, the room is deleted, and the probe answers `roomNotFound`. This also holds when both joined under the same name. |

## Findings

| source | as written | input that shows it | evidently intended | confidence | as-written member | corrected member |
|---|---|---|---|---|---|---|
| server.js:41 | The test `rooms[room]` is done on a plain object, so it is also truthy for names inherited from `Object.prototype`. | `checkRoom({room: "toString"})` with no rooms registered answers `roomExists`. | `roomExists` only for a registered room. | high; not executed | AsWritten.CheckRoomAsWritten, shown by AsWritten.PhantomRoomReported | Handlers.CheckRoom |
| server.js:79 | The filter compares against `socket.username`, which no handler assigns, so it only ever removes entries whose `username` was absent. | `createRoom("r1","alice")`, `joinRoom("r1","bob")`, both connections close, then `checkRoom("r1")` answers `roomExists`. | The departing user's entries leave the room, and a room left empty is deleted. | high; not executed | AsWritten.DisconnectAsWritten, shown by Scenarios.BothLeaveAsWritten | Handlers.Disconnect, shown by Scenarios.BothLeaveByName and Properties.DisconnectRemovesIdentity |

## Left out

- Express app, CORS middleware, static files and the `/` route (server.js:1-25): HTTP plumbing over libraries outside this model.
- `process.env.PORT` and `server.listen` (server.js:91-95): process start-up.
- Transport delivery: `socket.join`, `socket.emit` and `io.to(room).emit` appear only as returned `Effect` values. Which connections a group contains, and whether delivery succeeds, are not modelled.
- `console.log` calls: output only, with no effect on state.
- Concurrency: each handler runs to completion on one event loop, so handlers are modelled as atomic, sequential transitions.
- Room names are strings. The source would turn a non-string `room` (a number, or an absent field, which becomes `"undefined"`) into a key. A `username` or `message` field of another JSON type (`null`, a number, an object) is modelled as a present value, `Some(..)`, and never as `None`. As written, the filter keeps a `null` entry when the identity is absent, because `null !== undefined`.
- A `null` or missing payload makes the destructuring throw. This is not modelled. A primitive payload gives absent fields, and its room key is `"undefined"`.
- Names inherited from `Object.prototype` in `createRoom`, `joinRoom` and `sendMessage` (server.js:33-34, 49-53, 60-63): as written, the lookup finds the inherited value, which has no `users` or `messages`. The handler then throws a `TypeError`, and the error escapes it. The handlers here treat such a name like any other room name. The throw is not modelled.
- A connection-to-user session table: the source keeps none, so `Disconnect` takes the departing identity as a parameter.
- Handlers.SendMessage: the history clause is stated only for a history of at most 10 entries, because that is what the source promises. The code removes at most one entry per send. Every reachable history is within that bound (`Invariant.ReachableIsValid`), so the case never arises.
- Growth of member lists and of the number of rooms is unbounded in the source and in the model.

=== FILE: as_written.dfy ===
/** Two places where the handlers as written behave differently from what
    they evidently intend. The rest of the model uses the intended reading;
    this module pins down the written one and the inputs that separate them. */
module AsWritten {
  import opened Wrappers
  import opened Rooms
  import opened Protocol
  import opened Handlers

  /** The properties every plain JavaScript object inherits from
      `Object.prototype`. Reading `rooms[name]` for one of them yields a
      function or an object, which is truthy, although no room is registered
      under that name. */
  const InheritedNames: set<string> := {
    "constructor", "__proto__", "hasOwnProperty", "isPrototypeOf",
    "propertyIsEnumerable", "toLocaleString", "toString", "valueOf",
    "__defineGetter__", "__defineSetter__", "__lookupGetter__", "__lookupSetter__"
  }

  /** `checkRoom` as written: the test `rooms[room]` also succeeds for an
      inherited name, so the probe answers `roomExists` for it. */
  function CheckRoomAsWritten(reg: Registry, room: string): (r: Outcome)
    ensures r.registry == reg
    ensures |r.effects| == 1
    ensures r.effects[0] == Emit(Caller, RoomExists) <==> room in reg || room in InheritedNames
    ensures r.effects[0] == Emit(Caller, RoomNotFound) <==> room !in reg && room !in InheritedNames
  {
    var truthy := room in reg || room in InheritedNames;
    Outcome(reg, [Emit(Caller, if truthy then RoomExists else RoomNotFound)])
  }

  /** The written probe and the intended one agree on every other name. */
  lemma CheckRoomAsWrittenAgrees(reg: Registry, room: string)
    requires room !in InheritedNames
    ensures CheckRoomAsWritten(reg, room) == CheckRoom(reg, room)
  {
  }

  /** The separating input: with no rooms at all, probing `"toString"`
      answers `roomExists` as written, while the intended probe answers
      `roomNotFound`. */
  lemma PhantomRoomReported()
    ensures var empty: Registry := map[];
      && "toString" !in empty
      && CheckRoomAsWritten(empty, "toString").effects == [Emit(Caller, RoomExists)]
      && CheckRoom(empty, "toString").effects == [Emit(Caller, RoomNotFound)]
  {
    assert "toString" in InheritedNames;
  }

  /** `disconnect` as written: the filter compares every entry against
      `socket.username`, which no handler assigns, so the departing identity
      is always absent. Only entries from payloads without a `username` are
      ever removed: a room is kept exactly when it has a named member, and
      keeps every named entry, as many times as it held it, and its history. */
  function DisconnectAsWritten(reg: Registry): (r: Outcome)
    ensures r.effects == []
    ensures r.registry.Keys <= reg.Keys
    ensures forall name :: name in reg ==>
      (name in r.registry <==> exists u :: u in reg[name].users && u.Some?)
    ensures forall name :: name in r.registry ==>
      forall u :: u in reg[name].users && u.Some? ==> u in r.registry[name].users
    ensures forall name :: name in r.registry ==>
      && None !in r.registry[name].users
      && (forall u: Member :: u.Some? ==> multiset(r.registry[name].users)[u] == multiset(reg[name].users)[u])
      && r.registry[name].messages == reg[name].messages
  {
    var r := Disconnect(reg, None);
    assert forall name :: name in reg ==>
      (HasOtherThan(reg[name].users, None) <==> exists u :: u in reg[name].users && u.Some?);
    assert forall name :: name in r.registry ==>
      forall u :: u in reg[name].users && u.Some? ==> u in r.registry[name].users by {
      forall name | name in r.registry
        ensures forall u :: u in reg[name].users && u.Some? ==> u in r.registry[name].users
      {
        forall u | u in reg[name].users && u.Some? ensures u in r.registry[name].users {
          assert multiset(reg[name].users)[u] > 0;
          assert multiset(r.registry[name].users)[u] == multiset(reg[name].users)[u];
        }
      }
    }
    forall name | name in r.registry ensures None !in r.registry[name].users {
      assert multiset(r.registry[name].users)[None] == 0;
    }
    r
  }

  /** A room whose every member gave a `username` is never touched by the
      written `disconnect`: the room outlives all its members' connections. */
  lemma NamedRoomNeverDeleted(reg: Registry, name: string)
    requires name in reg && reg[name].users != [] && None !in reg[name].users
    ensures name in DisconnectAsWritten(reg).registry
    ensures DisconnectAsWritten(reg).registry[name] == reg[name]
  {
    var users := reg[name].users;
    assert users[0] in users && users[0].Some?;
    RemoveAbsent(users, None);
  }
}

=== FILE: handlers.dfy ===
/** The five socket event handlers of the relay, each a transition from the
    registry before the event to the registry after it, together with the
    transport instructions the handler issues. */
module Handlers {
  import opened Wrappers
  import opened Rooms
  import opened Protocol

  /** The registry after a handler ran, and what it asked the transport to do,
      in order. */
  datatype Outcome = Outcome(registry: Registry, effects: seq<Effect>)

  /** `createRoom { room, username }`: registers the room if it is missing,
      appends `username` to its members, adds the caller to the room's group
      and acknowledges with `roomCreated`, whether or not the room existed. */
  function CreateRoom(reg: Registry, room: string, username: Member): (r: Outcome)
    ensures room in r.registry
    ensures room in reg ==> r.registry[room] == Room(reg[room].users + [username], reg[room].messages)
    ensures room !in reg ==> r.registry[room] == Room([username], [])
    ensures OthersUnchanged(reg, r.registry, room)
    ensures r.effects == [JoinGroup(room), Emit(Caller, RoomCreated(room))]
  {
    var existing := if room in reg then reg[room] else EmptyRoom;
    var joined := existing.(users := existing.users + [username]);
    Outcome(reg[room := joined], [JoinGroup(room), Emit(Caller, RoomCreated(room))])
  }

  /** `checkRoom { room }`: an existence probe that changes nothing. */
  function CheckRoom(reg: Registry, room: string): (r: Outcome)
    ensures r.registry == reg
    ensures |r.effects| == 1
    ensures r.effects[0] == Emit(Caller, RoomExists) <==> room in reg
    ensures r.effects[0] == Emit(Caller, RoomNotFound) <==> room !in reg
  {
    Outcome(reg, [Emit(Caller, if room in reg then RoomExists else RoomNotFound)])
  }

  /** `joinRoom { room, username }`: refuses an unknown room without creating
      it; otherwise appends `username`, adds the caller to the group and sends
      the caller the room's history, oldest first. */
  function JoinRoom(reg: Registry, room: string, username: Member): (r: Outcome)
    ensures room !in reg ==> r.registry == reg && r.effects == [Emit(Caller, RoomNotFound)]
    ensures room in reg ==>
      && room in r.registry
      && r.registry[room] == Room(reg[room].users + [username], reg[room].messages)
      && OthersUnchanged(reg, r.registry, room)
      && r.effects == [JoinGroup(room), Emit(Caller, LoadMessages(reg[room].messages))]
  {
    if room !in reg then
      Outcome(reg, [Emit(Caller, RoomNotFound)])
    else
      var joined := reg[room].(users := reg[room].users + [username]);
      Outcome(reg[room := joined], [JoinGroup(room), Emit(Caller, LoadMessages(joined.messages))])
  }

  /** `sendMessage { room, message, username }`: silently ignored for an
      unknown room; otherwise the entry `{ username, message }` is appended to
      the history, the oldest entry is dropped once the history holds more than
      `HistoryCapacity`, and the entry is broadcast to the room's group. */
  function SendMessage(reg: Registry, room: string, message: Option<string>, username: Option<string>): (r: Outcome)
    ensures room !in reg ==> r.registry == reg && r.effects == []
    ensures room in reg ==>
      && room in r.registry
      && r.registry[room].users == reg[room].users
      && OthersUnchanged(reg, r.registry, room)
      && r.effects == [Emit(Group(room), NewMessage(Msg(username, message)))]
    ensures room in reg && |reg[room].messages| <= HistoryCapacity ==>
      r.registry[room].messages == LastN(reg[room].messages + [Msg(username, message)], HistoryCapacity)
  {
    if room !in reg then
      Outcome(reg, [])
    else
      var entry := Msg(username, message);
      var pushed := reg[room].messages + [entry];
      var kept := if |pushed| > HistoryCapacity then pushed[1..] else pushed;
      Outcome(reg[room := reg[room].(messages := kept)], [Emit(Group(room), NewMessage(entry))])
  }

  /** `disconnect`: every room's member list loses the entries equal to the
      departing `identity`; a room left without members is deleted. Nothing
      is emitted. The source compares against `socket.username`, which no
      handler assigns, so as written `identity` is always `None`. */
  function Disconnect(reg: Registry, identity: Member): (r: Outcome)
    ensures r.effects == []
    ensures r.registry.Keys <= reg.Keys
    ensures forall name :: name in reg ==>
      (name in r.registry <==> HasOtherThan(reg[name].users, identity))
    ensures forall name :: name in r.registry ==>
      r.registry[name] == Room(Remove(reg[name].users, identity), reg[name].messages)
  {
    var swept := map name | name in reg && Remove(reg[name].users, identity) != [] ::
      reg[name].(users := Remove(reg[name].users, identity));
    assert forall name :: name in reg ==>
      (name in swept <==> HasOtherThan(reg[name].users, identity)) by {
      forall name | name in reg {
        RemoveEmptyIff(reg[name].users, identity);
      }
    }
    Outcome(swept, [])
  }

  /** The registry part-way through the `disconnect` loop: the rooms still
      `pending` are as they were, the others have been filtered and, when
      left empty, deleted. */
  ghost function PartlySwept(reg: Registry, identity: Member, pending: set<string>): Registry
  {
    map name | name in reg && (name in pending || Remove(reg[name].users, identity) != []) ::
      if name in pending then reg[name] else reg[name].(users := Remove(reg[name].users, identity))
  }

  /** Visiting one more pending room moves the loop one step along. */
  lemma SweepStep(reg: Registry, identity: Member, pending: set<string>, name: string)
    requires name in pending && pending <= reg.Keys
    ensures var users := Remove(reg[name].users, identity);
      var before := PartlySwept(reg, identity, pending);
      PartlySwept(reg, identity, pending - {name})
        == if users == [] then before - {name} else before[name := reg[name].(users := users)]
  {
  }

  /** With no room pending, the loop has reached `Disconnect`'s result. */
  lemma SweepDone(reg: Registry, identity: Member)
    ensures PartlySwept(reg, identity, {}) == Disconnect(reg, identity).registry
  {
  }

  /** The room-by-room loop of the source's `disconnect` handler: each room
      is filtered and, when left empty, deleted, before the next one is
      visited. Its result is the one `Disconnect` describes, whatever order
      the rooms are visited in. */
  method DisconnectSweep(reg: Registry, identity: Member) returns (r: Registry)
    ensures r == Disconnect(reg, identity).registry
  {
    r := reg;
    var pending := reg.Keys;
    assert r == PartlySwept(reg, identity, pending);
    while pending != {}
      invariant pending <= reg.Keys
      invariant r == PartlySwept(reg, identity, pending)
      decreases pending
    {
      var name :| name in pending;
      SweepStep(reg, identity, pending, name);
      var users := Remove(r[name].users, identity);
      if users == [] {
        r := r - {name};
      } else {
        r := r[name := r[name].(users := users)];
      }
      pending := pending - {name};
    }
    SweepDone(reg, identity);
  }
}

=== FILE: invariant.dfy ===
/** The registry invariant — every registered room has a member and at most
    `HistoryCapacity` messages — is kept by every handler, and so holds in
    every registry the server can reach. */
module Invariant {
  import opened Wrappers
  import opened Rooms
  import opened Handlers
  import Server

  /** `createRoom` leaves its room with at least the new member, and its
      history as it was (or empty). */
  lemma CreateRoomKeepsValid(reg: Registry, room: string, username: Member)
    requires Valid(reg)
    ensures Valid(CreateRoom(reg, room, username).registry)
  {
    var after := CreateRoom(reg, room, username).registry;
    forall name | name in after ensures WellFormedRoom(after[name]) {
      if name != room {
        assert name in reg && after[name] == reg[name];
      }
    }
  }

  /** `joinRoom` only ever lengthens a member list. */
  lemma JoinRoomKeepsValid(reg: Registry, room: string, username: Member)
    requires Valid(reg)
    ensures Valid(JoinRoom(reg, room, username).registry)
  {
    var after := JoinRoom(reg, room, username).registry;
    forall name | name in after ensures WellFormedRoom(after[name]) {
      if name != room {
        assert name in reg && after[name] == reg[name];
      }
    }
  }

  /** `sendMessage` keeps a history of at most `HistoryCapacity` within it. */
  lemma SendMessageKeepsValid(reg: Registry, room: string, message: Option<string>, username: Option<string>)
    requires Valid(reg)
    ensures Valid(SendMessage(reg, room, message, username).registry)
  {
    var after := SendMessage(reg, room, message, username).registry;
    forall name | name in after ensures WellFormedRoom(after[name]) {
      if name != room {
        assert name in reg && after[name] == reg[name];
      }
    }
  }

  /** `disconnect` leaves no registered room without members, adds none,
      and keeps every surviving room's history. */
  lemma DisconnectKeepsValid(reg: Registry, identity: Member)
    requires Valid(reg)
    ensures Valid(Disconnect(reg, identity).registry)
    ensures var after := Disconnect(reg, identity).registry;
      forall name :: name in after ==> name in reg && after[name].messages == reg[name].messages
  {
    var after := Disconnect(reg, identity).registry;
    forall name | name in after ensures WellFormedRoom(after[name]) {
      RemoveEmptyIff(reg[name].users, identity);
    }
  }

  /** Whatever the event, a valid registry stays valid. */
  lemma StepKeepsValid(reg: Registry, ev: Server.Inbound)
    requires Valid(reg)
    ensures Valid(Server.Step(reg, ev).registry)
  {
    match ev
    case OnCreateRoom(room, username) => CreateRoomKeepsValid(reg, room, username);
    case OnCheckRoom(room) =>
    case OnJoinRoom(room, username) => JoinRoomKeepsValid(reg, room, username);
    case OnSendMessage(room, message, username) => SendMessageKeepsValid(reg, room, message, username);
    case OnDisconnect(identity) => DisconnectKeepsValid(reg, identity);
  }

  /** The invariant holds after any run of events from a valid registry. */
  lemma {:induction false} RunKeepsValid(reg: Registry, evs: seq<Server.Inbound>)
    requires Valid(reg)
    ensures Valid(Server.Run(reg, evs).registry)
    decreases |evs|
  {
    if evs != [] {
      StepKeepsValid(reg, evs[0]);
      RunKeepsValid(Server.Step(reg, evs[0]).registry, evs[1..]);
      assert Server.Run(reg, evs).registry == Server.Run(Server.Step(reg, evs[0]).registry, evs[1..]).registry;
    }
  }

  /** The server starts with no rooms, so in every reachable registry a room
      is registered only while it has a member, and no history holds more
      than `HistoryCapacity` messages. */
  lemma ReachableIsValid(evs: seq<Server.Inbound>)
    ensures var reg := Server.Run(map[], evs).registry;
      forall name :: name in reg ==> |reg[name].users| > 0 && |reg[name].messages| <= HistoryCapacity
  {
    RunKeepsValid(map[], evs);
  }
}

=== FILE: properties.dfy ===
/** Properties that relate several handlers, or one handler to itself. */
module Properties {
  import opened Wrappers
  import opened Rooms
  import opened Protocol
  import opened Handlers

  /** After `createRoom` the probe finds the room, and a later `joinRoom` is
      accepted and replays the history the room had before, if any. */
  lemma CreatedRoomIsJoinable(reg: Registry, room: string, creator: Member, joiner: Member)
    ensures var created := CreateRoom(reg, room, creator).registry;
      && CheckRoom(created, room).effects == [Emit(Caller, RoomExists)]
      && JoinRoom(created, room, joiner).effects
         == [JoinGroup(room), Emit(Caller, LoadMessages(if room in reg then reg[room].messages else []))]
  {
  }

  /** Members are a list, not a set: every `createRoom` or `joinRoom` adds one
      more entry for its `username`, even a repeated one. */
  lemma JoinCountsEveryEntry(reg: Registry, room: string, username: Member)
    ensures var before := if room in reg then multiset(reg[room].users)[username] else 0;
      var created := CreateRoom(reg, room, username).registry;
      multiset(created[room].users)[username] == before + 1
    ensures room in reg ==>
      var joined := JoinRoom(reg, room, username).registry;
      multiset(joined[room].users)[username] == multiset(reg[room].users)[username] + 1
  {
    if room in reg {
      var users := reg[room].users;
      assert multiset(users + [username]) == multiset(users) + multiset{username};
    }
  }

  /** A message sent to a valid room is the last entry of the history that
      the next joiner is sent, and that history is within capacity. */
  lemma JoinerSeesLatestMessage(reg: Registry, room: string, message: Option<string>, author: Option<string>, joiner: Member)
    requires Valid(reg) && room in reg
    ensures var sent := SendMessage(reg, room, message, author).registry;
      var replies := JoinRoom(sent, room, joiner).effects;
      && |replies| == 2
      && replies[1].Emit? && replies[1].reply.LoadMessages?
      && var history := replies[1].reply.history;
      && 0 < |history| <= HistoryCapacity
      && history[|history| - 1] == Msg(author, message)
  {
    var h := reg[room].messages + [Msg(author, message)];
    var kept := LastN(h, HistoryCapacity);
    assert kept[|kept| - 1] == h[|h| - 1];
  }

  /** After `disconnect`, no room holds an entry equal to the departing
      identity, and every other entry of a surviving room is still there. */
  lemma DisconnectRemovesIdentity(reg: Registry, identity: Member)
    ensures var after := Disconnect(reg, identity).registry;
      forall name :: name in after ==>
        && identity !in after[name].users
        && forall u :: u in reg[name].users && u != identity ==> u in after[name].users
  {
    var after := Disconnect(reg, identity).registry;
    forall name | name in after
      ensures identity !in after[name].users
      ensures forall u :: u in reg[name].users && u != identity ==> u in after[name].users
    {
      var users := reg[name].users;
      assert multiset(after[name].users)[identity] == 0;
      forall u | u in users && u != identity ensures u in after[name].users {
        assert multiset(users)[u] > 0;
        assert multiset(after[name].users)[u] == multiset(users)[u];
      }
    }
  }

  /** One room that survived a `disconnect` survives a second one with the
      same identity unchanged. */
  lemma SurvivorIsStable(reg: Registry, identity: Member, name: string)
    requires name in Disconnect(reg, identity).registry
    ensures var once := Disconnect(reg, identity).registry;
      name in Disconnect(once, identity).registry
      && Disconnect(once, identity).registry[name] == once[name]
  {
    var once := Disconnect(reg, identity).registry;
    var users := once[name].users;
    assert users == Remove(reg[name].users, identity);
    assert multiset(users)[identity] == 0;
    assert identity !in users;
    RemoveAbsent(users, identity);
    RemoveEmptyIff(users, identity);
    RemoveEmptyIff(reg[name].users, identity);
  }

  /** A second `disconnect` with the same identity changes nothing more. */
  lemma DisconnectIdempotent(reg: Registry, identity: Member)
    ensures var once := Disconnect(reg, identity).registry;
      Disconnect(once, identity).registry == once
  {
    var once := Disconnect(reg, identity).registry;
    var twice := Disconnect(once, identity).registry;
    forall name | name in once
      ensures name in twice && twice[name] == once[name]
    {
      SurvivorIsStable(reg, identity, name);
    }
    assert twice.Keys == once.Keys;
  }

  /** Filtering keeps the survivors in their original relative order: an
      entry that came before another in the room still comes before it. */
  lemma DisconnectKeepsOrder(reg: Registry, identity: Member, name: string, before: seq<Member>, after: seq<Member>)
    requires name in reg && reg[name].users == before + after
    ensures var swept := Disconnect(reg, identity).registry;
      name in swept ==> swept[name].users == Remove(before, identity) + Remove(after, identity)
  {
    RemoveAppend(before, after, identity);
  }
}

=== FILE: protocol.dfy ===
/** What a handler asks the transport to do: add the calling connection to a
    room's multicast group, or deliver an event to the caller or to a group.
    Delivery itself is not modelled; handlers return these values in the
    order the source issues them. */
module Protocol {
  import opened Rooms

  /** Who an emitted event is addressed to. */
  datatype Target =
    | Caller               // `socket.emit`: the connection that sent the request
    | Group(room: string)  // `io.to(room).emit`: every connection in the room's group

  /** The outbound events and their payloads. */
  datatype Reply =
    | RoomCreated(room: string)
    | RoomExists
    | RoomNotFound
    | LoadMessages(history: seq<Msg>)
    | NewMessage(entry: Msg)

  /** One instruction to the transport. */
  datatype Effect =
    | JoinGroup(room: string)            // `socket.join(room)`
    | Emit(to: Target, reply: Reply)
}

=== FILE: rooms.dfy ===
/** The in-memory room registry of the chat relay: every room name maps to the
    room's member list and its bounded message history. */
module Rooms {
  import opened Wrappers

  /** A member entry is the `username` field of the payload that added it,
      which the client may have left out. Duplicates are allowed. */
  type Member = Option<string>

  /** A room keeps at most this many messages, dropping the oldest first. */
  const HistoryCapacity: nat := 10

  /** A chat message as stored and broadcast: `{ username, message }`. */
  datatype Msg = Msg(username: Option<string>, message: Option<string>)

  /** A room record: `{ users, messages }`, both oldest first. */
  datatype Room = Room(users: seq<Member>, messages: seq<Msg>)

  /** The process-wide registry, keyed by room name. */
  type Registry = map<string, Room>

  /** The record a first `createRoom` starts from. */
  const EmptyRoom := Room([], [])

  /** A room that may stay in the registry: someone is in it and its history
      is within capacity. */
  predicate WellFormedRoom(room: Room) {
    |room.users| > 0 && |room.messages| <= HistoryCapacity
  }

  /** The registry invariant: a room is registered only while it has members,
      and no history exceeds its capacity. */
  predicate Valid(reg: Registry) {
    forall name :: name in reg ==> WellFormedRoom(reg[name])
  }

  /** `reg'` agrees with `reg` on every room other than `name`: same names,
      same records. */
  ghost predicate OthersUnchanged(reg: Registry, reg': Registry, name: string) {
    forall other :: other != name ==>
      (other in reg' <==> other in reg) && (other in reg ==> reg'[other] == reg[other])
  }

  /** The last `n` elements of `s` (all of `s` when it is shorter). */
  function LastN<T>(s: seq<T>, n: nat): (r: seq<T>)
    ensures |r| == if |s| <= n then |s| else n
    ensures s[|s| - |r|..] == r
  {
    if |s| <= n then s else s[|s| - n..]
  }

  /** Keeping the last `n` twice, with more elements appended in between, is
      the same as keeping the last `n` once at the end. */
  lemma LastNAbsorbs<T>(a: seq<T>, b: seq<T>, n: nat)
    ensures LastN(LastN(a, n) + b, n) == LastN(a + b, n)
  {
    if |a| > n {
      var k := |a| - n;
      var tail := a[k..];
      var lhs := LastN(tail + b, n);
      var rhs := LastN(a + b, n);
      assert |lhs| == n && |rhs| == n;
      forall i | 0 <= i < n ensures lhs[i] == rhs[i] {
        assert lhs[i] == (tail + b)[|b| + i];
        assert rhs[i] == (a + b)[k + |b| + i];
      }
    }
  }

  /** The member list with every entry equal to `id` filtered out, the rest
      in their original order. */
  function Remove(users: seq<Member>, id: Member): (r: seq<Member>)
    ensures |r| <= |users|
    ensures multiset(r) == multiset(users)[id := 0]
  {
    if users == [] then []
    else
      assert users == [users[0]] + users[1..];
      if users[0] == id then Remove(users[1..], id)
      else [users[0]] + Remove(users[1..], id)
  }

  /** Filtering distributes over concatenation: the survivors of `a` come
      before the survivors of `b`, so the relative order is kept. */
  lemma {:induction false} RemoveAppend(a: seq<Member>, b: seq<Member>, id: Member)
    ensures Remove(a + b, id) == Remove(a, id) + Remove(b, id)
  {
    if a == [] {
      assert a + b == b;
    } else {
      assert (a + b)[0] == a[0];
      assert (a + b)[1..] == a[1..] + b;
      RemoveAppend(a[1..], b, id);
    }
  }

  /** Filtering a list that holds no `id` changes nothing. */
  lemma {:induction false} RemoveAbsent(users: seq<Member>, id: Member)
    requires id !in users
    ensures Remove(users, id) == users
  {
    if users != [] {
      assert id !in users[1..] by {
        forall u | u in users[1..] ensures u != id {
          assert u in users;
        }
      }
      RemoveAbsent(users[1..], id);
    }
  }

  /** Some entry of `users` differs from `id`. */
  predicate HasOtherThan(users: seq<Member>, id: Member) {
    exists u :: u in users && u != id
  }

  /** The filtered list is non-empty exactly when some entry differs from `id`. */
  lemma RemoveEmptyIff(users: seq<Member>, id: Member)
    ensures Remove(users, id) != [] <==> HasOtherThan(users, id)
  {
    var r := Remove(users, id);
    if r == [] {
      forall u | u in users ensures u == id {
        assert multiset(users)[u] > 0;
        assert multiset(users)[id := 0][u] == 0;
      }
    } else {
      assert r[0] in multiset(r);
      assert multiset(r)[r[0]] > 0;
      assert r[0] != id;
      assert r[0] in multiset(users);
      assert r[0] in users;
    }
  }
}

=== FILE: scenarios.dfy ===
/** End-to-end runs of inbound events from an empty registry. */
module Scenarios {
  import opened Wrappers
  import opened Rooms
  import opened Protocol
  import opened Server
  import Handlers

  /** `alice` creates `room` and `bob` joins it: both are members, in that
      order, and `bob` is sent the still empty history. */
  lemma CreateThenJoin(room: string, alice: Member, bob: Member)
    ensures Run(map[], [OnCreateRoom(room, alice), OnJoinRoom(room, bob)])
      == Handlers.Outcome(map[room := Room([alice, bob], [])],
           [JoinGroup(room), Emit(Caller, RoomCreated(room)), JoinGroup(room), Emit(Caller, LoadMessages([]))])
  {
    var e1 := OnCreateRoom(room, alice);
    var e2 := OnJoinRoom(room, bob);
    var o1 := Step(map[], e1);
    assert o1.registry == map[room := Room([alice], [])];
    assert [alice] + [bob] == [alice, bob];
    var o2 := Step(o1.registry, e2);
    assert o2.registry == map[room := Room([alice, bob], [])];
    FoldCons(Step, o1.registry, e2, []);
    FoldCons(Step, map[], e1, [e2]);
    assert [e1, e2] == [e1] + [e2];
    assert [e2] == [e2] + [];
  }

  /** Alice creates a room, Bob joins it and is sent an empty history, then
      Alice's message is broadcast once to the room's group, which both
      joined. */
  lemma CreateJoinSend(room: string, alice: string, bob: string, text: string)
    ensures Run(map[], [
        OnCreateRoom(room, Some(alice)),
        OnJoinRoom(room, Some(bob)),
        OnSendMessage(room, Some(text), Some(alice))
      ]).effects == [
        JoinGroup(room), Emit(Caller, RoomCreated(room)),
        JoinGroup(room), Emit(Caller, LoadMessages([])),
        Emit(Group(room), NewMessage(Msg(Some(alice), Some(text))))
      ]
  {
    var e1 := OnCreateRoom(room, Some(alice));
    var e2 := OnJoinRoom(room, Some(bob));
    var e3 := OnSendMessage(room, Some(text), Some(alice));
    var o1 := Step(map[], e1);
    var o2 := Step(o1.registry, e2);
    var o3 := Step(o2.registry, e3);
    assert o1.registry == map[room := Room([Some(alice)], [])];
    assert o2.effects == [JoinGroup(room), Emit(Caller, LoadMessages([]))];
    FoldThree(Step, map[], e1, e2, e3, o1, o2, o3);
  }

  /** However many messages are sent to a freshly created room, a later
      joiner is sent exactly the last `HistoryCapacity` of them, in send
      order; after twelve sends, the last ten. */
  lemma JoinerGetsMostRecent(room: string, creator: Member, msgs: seq<Msg>, joiner: Member)
    ensures var evs := [OnCreateRoom(room, creator)] + Sends(room, msgs) + [OnJoinRoom(room, joiner)];
      var effects := Run(map[], evs).effects;
      && |effects| > 0
      && effects[|effects| - 1] == Emit(Caller, LoadMessages(LastN(msgs, HistoryCapacity)))
      && (|msgs| == 12 ==> effects[|effects| - 1] == Emit(Caller, LoadMessages(msgs[2..])))
  {
    var create := OnCreateRoom(room, creator);
    var sends := Sends(room, msgs);
    var join := OnJoinRoom(room, joiner);
    var before := Run(map[], [create] + sends);
    var reg2 := before.registry;
    var reply := Emit(Caller, LoadMessages(LastN(msgs, HistoryCapacity)));
    var last := Run(reg2, [join]).effects;
    assert last == [JoinGroup(room), reply] by {
      CreateThenSends(room, creator, msgs);
      FoldCons(Step, reg2, join, []);
      assert [join] == [join] + [];
    }
    var effects := before.effects + last;
    assert Run(map[], [create] + sends + [join]).effects == effects by {
      FoldAppend(Step, map[], [create] + sends, [join]);
    }
    assert effects[|effects| - 1] == reply;
    if |msgs| == 12 {
      assert LastN(msgs, HistoryCapacity) == msgs[2..];
    }
  }

  /** A freshly created room that is then sent `msgs` holds the last
      `HistoryCapacity` of them. */
  lemma CreateThenSends(room: string, creator: Member, msgs: seq<Msg>)
    ensures var reg := Run(map[], [OnCreateRoom(room, creator)] + Sends(room, msgs)).registry;
      room in reg && reg[room].messages == LastN(msgs, HistoryCapacity)
  {
    var create := OnCreateRoom(room, creator);
    var reg1 := Step(map[], create).registry;
    assert reg1 == map[room := Room([creator], [])];
    FoldCons(Step, map[], create, []);
    assert [create] == [create] + [];
    SendsKeepMostRecent(reg1, room, msgs);
    assert [] + msgs == msgs;
    FoldAppend(Step, map[], [create], Sends(room, msgs));
  }

  /** A `disconnect` without an identity leaves a room of named members as
      it is. */
  lemma NamelessLeaveKeepsRoom(room: string, alice: string, bob: string)
    ensures var reg := map[room := Room([Some(alice), Some(bob)], [])];
      Step(reg, OnDisconnect(None)) == Handlers.Outcome(reg, [])
  {
    NamelessLeaveKeepsEntry(room, [Some(alice), Some(bob)]);
  }

  /** A one-room registry whose members all gave a name comes out of a
      `disconnect` without an identity unchanged. */
  lemma NamelessLeaveKeepsEntry(room: string, users: seq<Member>)
    requires users != [] && None !in users
    ensures var reg := map[room := Room(users, [])];
      Handlers.Disconnect(reg, None) == Handlers.Outcome(reg, [])
  {
    var reg := map[room := Room(users, [])];
    var after := Handlers.Disconnect(reg, None).registry;
    assert room in after && after[room] == reg[room] by {
      RemoveAbsent(users, None);
      assert users[0] in users && users[0] != None;
      assert HasOtherThan(users, None);
    }
    assert after.Keys == reg.Keys;
  }

  /** Two named members join a room and both connections close. As written,
      `disconnect` filters by an identity that is never set, so the room is
      still registered and the probe finds it. */
  lemma BothLeaveAsWritten(room: string, alice: string, bob: string)
    ensures var joined := Run(map[], [OnCreateRoom(room, Some(alice)), OnJoinRoom(room, Some(bob))]).registry;
      Run(joined, [OnDisconnect(None), OnDisconnect(None), OnCheckRoom(room)]).effects
        == [Emit(Caller, RoomExists)]
  {
    var reg := map[room := Room([Some(alice), Some(bob)], [])];
    var e3 := OnDisconnect(None);
    var e5 := OnCheckRoom(room);
    CreateThenJoin(room, Some(alice), Some(bob));
    NamelessLeaveKeepsRoom(room, alice, bob);
    var found := Handlers.Outcome(reg, [Emit(Caller, RoomExists)]);
    assert Step(reg, e5) == found;
    FoldThree(Step, reg, e3, e3, e5, Handlers.Outcome(reg, []), Handlers.Outcome(reg, []), found);
  }

  /** The first of two members leaves under their name. The other one is
      left alone in the room, unless both joined under the same name: then
      both entries go and the room is deleted. */
  lemma FirstLeaves(room: string, alice: string, bob: string)
    ensures Step(map[room := Room([Some(alice), Some(bob)], [])], OnDisconnect(Some(alice)))
      == Handlers.Outcome(if alice == bob then map[] else map[room := Room([Some(bob)], [])], [])
  {
    var users := [Some(alice), Some(bob)];
    assert users[1..] == [Some(bob)];
    assert [Some(bob)][1..] == [];
    var after := Step(map[room := Room(users, [])], OnDisconnect(Some(alice))).registry;
    if alice == bob {
      assert Remove(users, Some(alice)) == [];
      assert room !in after;
      assert after.Keys == {};
    } else {
      assert Remove(users, Some(alice)) == [Some(bob)];
      assert users[1] in users && users[1] != Some(alice);
      assert room in after && after[room] == Room([Some(bob)], []);
      assert after.Keys == {room};
    }
  }

  /** Nothing is left to remove once every room is gone. */
  lemma LeaveEmpty(identity: Member)
    ensures Step(map[], OnDisconnect(identity)) == Handlers.Outcome(map[], [])
  {
    var after := Step(map[], OnDisconnect(identity)).registry;
    assert after.Keys == {};
  }

  /** The last member leaves under their name: the room is deleted. */
  lemma LastLeaves(room: string, bob: string)
    ensures Step(map[room := Room([Some(bob)], [])], OnDisconnect(Some(bob)))
      == Handlers.Outcome(map[], [])
  {
    assert [Some(bob)][1..] == [];
    assert Remove([Some(bob)], Some(bob)) == [];
    var after := Step(map[room := Room([Some(bob)], [])], OnDisconnect(Some(bob))).registry;
    assert room !in after;
    assert after.Keys == {};
  }

  /** The same run when each closing connection is identified by the
      username it joined with: the room is deleted once both have left, and
      the probe reports it missing. This holds as well when both joined
      under the same name: the first departure then removes both entries. */
  lemma BothLeaveByName(room: string, alice: string, bob: string)
    ensures var joined := Run(map[], [OnCreateRoom(room, Some(alice)), OnJoinRoom(room, Some(bob))]).registry;
      Run(joined, [OnDisconnect(Some(alice)), OnDisconnect(Some(bob)), OnCheckRoom(room)]).effects
        == [Emit(Caller, RoomNotFound)]
  {
    var e3 := OnDisconnect(Some(alice));
    var e4 := OnDisconnect(Some(bob));
    var e5 := OnCheckRoom(room);
    var reg2 := map[room := Room([Some(alice), Some(bob)], [])];
    var reg3 := map[room := Room([Some(bob)], [])];
    var reg4: Registry := map[];
    CreateThenJoin(room, Some(alice), Some(bob));
    FirstLeaves(room, alice, bob);
    var none := Handlers.Outcome(reg4, [Emit(Caller, RoomNotFound)]);
    assert Step(reg4, e5) == none;
    if alice == bob {
      LeaveEmpty(Some(bob));
      FoldThree(Step, reg2, e3, e4, e5, Handlers.Outcome(reg4, []), Handlers.Outcome(reg4, []), none);
    } else {
      LastLeaves(room, bob);
      FoldThree(Step, reg2, e3, e4, e5, Handlers.Outcome(reg3, []), Handlers.Outcome(reg4, []), none);
    }
  }
}

=== FILE: server.dfy ===
/** The connection's event dispatch: an inbound socket event selects one of
    the five handlers. Runs of events are handled one at a time, each to
    completion, as on the source's single event loop. */
module Server {
  import opened Wrappers
  import opened Rooms
  import opened Protocol
  import Handlers

  /** The inbound socket events and their payload fields. `Disconnect`
      carries the identity the handler filters by (`socket.username`). */
  datatype Inbound =
    | OnCreateRoom(room: string, username: Member)
    | OnCheckRoom(room: string)
    | OnJoinRoom(room: string, username: Member)
    | OnSendMessage(room: string, message: Option<string>, username: Option<string>)
    | OnDisconnect(identity: Member)

  /** Handles one event. Probes, refused joins and sends to an unknown room
      change nothing; only `createRoom` registers a room and only
      `disconnect` removes one. */
  function Step(reg: Registry, ev: Inbound): (r: Handlers.Outcome)
    ensures ev.OnCheckRoom? ==> r.registry == reg
    ensures (ev.OnJoinRoom? || ev.OnSendMessage?) && ev.room !in reg ==> r.registry == reg
    ensures forall name :: name in r.registry && name !in reg ==> ev.OnCreateRoom? && name == ev.room
    ensures forall name :: name in reg && name !in r.registry ==> ev.OnDisconnect?
  {
    match ev
    case OnCreateRoom(room, username) => Handlers.CreateRoom(reg, room, username)
    case OnCheckRoom(room) => Handlers.CheckRoom(reg, room)
    case OnJoinRoom(room, username) => Handlers.JoinRoom(reg, room, username)
    case OnSendMessage(room, message, username) => Handlers.SendMessage(reg, room, message, username)
    case OnDisconnect(identity) => Handlers.Disconnect(reg, identity)
  }

  /** Handles `evs` in order with `step`; the effects are those of each
      event, in turn. */
  function Fold(step: (Registry, Inbound) -> Handlers.Outcome, reg: Registry, evs: seq<Inbound>): Handlers.Outcome
    decreases |evs|
  {
    if evs == [] then Handlers.Outcome(reg, [])
    else
      var first := step(reg, evs[0]);
      var rest := Fold(step, first.registry, evs[1..]);
      Handlers.Outcome(rest.registry, first.effects + rest.effects)
  }

  /** Handles `evs` one at a time, each to completion. */
  function Run(reg: Registry, evs: seq<Inbound>): Handlers.Outcome
  {
    Fold(Step, reg, evs)
  }

  /** Handling `ev` and then `rest` is handling `[ev] + rest`. */
  lemma FoldCons(step: (Registry, Inbound) -> Handlers.Outcome, reg: Registry, ev: Inbound, rest: seq<Inbound>)
    ensures var first := step(reg, ev);
      var second := Fold(step, first.registry, rest);
      Fold(step, reg, [ev] + rest) == Handlers.Outcome(second.registry, first.effects + second.effects)
  {
    assert ([ev] + rest)[0] == ev;
    assert ([ev] + rest)[1..] == rest;
  }

  /** Handling `a` and then `b` is handling `a + b`. */
  lemma {:induction false} FoldAppend(step: (Registry, Inbound) -> Handlers.Outcome, reg: Registry, a: seq<Inbound>, b: seq<Inbound>)
    ensures var first := Fold(step, reg, a);
      var second := Fold(step, first.registry, b);
      Fold(step, reg, a + b) == Handlers.Outcome(second.registry, first.effects + second.effects)
    decreases |a|
  {
    if a == [] {
      assert a + b == b;
    } else {
      var head := step(reg, a[0]);
      var tail := Fold(step, head.registry, a[1..]);
      var second := Fold(step, tail.registry, b);
      assert (a + b)[0] == a[0];
      assert (a + b)[1..] == a[1..] + b;
      FoldAppend(step, head.registry, a[1..], b);
      assert head.effects + (tail.effects + second.effects) == (head.effects + tail.effects) + second.effects;
    }
  }

  /** Three events whose individual outcomes are known, handled in a row. */
  lemma FoldThree(step: (Registry, Inbound) -> Handlers.Outcome, reg: Registry,
                  e1: Inbound, e2: Inbound, e3: Inbound,
                  o1: Handlers.Outcome, o2: Handlers.Outcome, o3: Handlers.Outcome)
    requires step(reg, e1) == o1 && step(o1.registry, e2) == o2 && step(o2.registry, e3) == o3
    ensures Fold(step, reg, [e1, e2, e3]) == Handlers.Outcome(o3.registry, o1.effects + o2.effects + o3.effects)
  {
    FoldCons(step, o2.registry, e3, []);
    FoldCons(step, o1.registry, e2, [e3]);
    FoldCons(step, reg, e1, [e2, e3]);
    assert [e1, e2, e3] == [e1] + [e2, e3];
    assert [e2, e3] == [e2] + [e3];
    assert [e3] == [e3] + [];
  }

  /** The events that send each of `msgs` to `room`, in order. */
  function Sends(room: string, msgs: seq<Msg>): seq<Inbound>
    decreases |msgs|
  {
    if msgs == [] then []
    else [OnSendMessage(room, msgs[0].message, msgs[0].username)] + Sends(room, msgs[1..])
  }

  /** Any run of sends to a registered room leaves exactly the most recent
      `HistoryCapacity` messages, in send order, leaves its members and the
      other rooms alone, and broadcasts each message once, to the room's
      group, in send order. */
  lemma {:induction false} SendsKeepMostRecent(reg: Registry, room: string, msgs: seq<Msg>)
    requires room in reg && |reg[room].messages| <= HistoryCapacity
    ensures var r := Run(reg, Sends(room, msgs));
      && room in r.registry
      && r.registry[room].messages == LastN(reg[room].messages + msgs, HistoryCapacity)
      && r.registry[room].users == reg[room].users
      && OthersUnchanged(reg, r.registry, room)
      && |r.effects| == |msgs|
      && forall i :: 0 <= i < |msgs| ==> r.effects[i] == Emit(Group(room), NewMessage(msgs[i]))
    decreases |msgs|
  {
    var h := reg[room].messages;
    if msgs == [] {
      assert h + msgs == h;
    } else {
      var m := msgs[0];
      var evs := Sends(room, msgs);
      assert evs[0] == OnSendMessage(room, m.message, m.username);
      assert evs[1..] == Sends(room, msgs[1..]);
      var first := Step(reg, evs[0]);
      assert first == Handlers.SendMessage(reg, room, m.message, m.username);
      assert Msg(m.username, m.message) == m;
      var reg1 := first.registry;
      SendsKeepMostRecent(reg1, room, msgs[1..]);
      LastNAbsorbs(h + [m], msgs[1..], HistoryCapacity);
      assert h + [m] + msgs[1..] == h + msgs;
      var rest := Run(reg1, evs[1..]);
      assert Run(reg, evs).effects == first.effects + rest.effects;
      forall i | 0 <= i < |msgs|
        ensures Run(reg, evs).effects[i] == Emit(Group(room), NewMessage(msgs[i]))
      {
        if i > 0 {
          assert Run(reg, evs).effects[i] == rest.effects[i - 1];
        }
      }
    }
  }
}

=== FILE: wrappers.dfy ===
/** The optional value used for payload fields a client may leave out. */
module Wrappers {

  /** `None` stands for a field that is absent from an inbound payload
      (JavaScript `undefined`); `Some(v)` for a field that carries `v`. */
  datatype Option<+T> = None | Some(value: T)
}
